=== FILE: README.md ===
# guispecan reader: a Dafny model

guispecan shows the output of `ubertooth-specan -g` as a scrolling line chart.
Its one piece of real logic is the read loop of `readSpectrum` in `main.go`.
The loop cuts the tool's standard output into '\n'-terminated lines. A sample
line `"<bucket> <rssi>"` adds one reading to the frame in progress. An empty
line pushes that frame, even when it has no samples, into a history of at most
`SpectrumCount` = 100 frames. When the history is full, the oldest frame is
shifted out first. Any other line stops the program with
`"unexpected output: " + line`.

This project models that loop as a pure state machine over
`State(history, current)` and proves what it does.

- `wrappers.dfy` (`Wrappers`): `Option` and `Result`.
- `splitting.dfy` (`Splitting`): `Split`, the behaviour of `strings.Split` with
  a one-character separator, and its inverse `Join`. The same function cuts the
  text into lines at '\n', a line into fields at ' ', and a line sequence into
  frames at the empty line.
- `decimal.dfy` (`Decimal`): `Atoi`, the second field's reading. This is
  `strconv.Atoi` with its error dropped. An optional sign followed by one or
  more digits gives its value; anything else gives 0. `Format` is its right
  inverse: `Atoi(Format(n)) == n`.
- `history.dfy` (`History`): `SpectrumCount`, `Push`, and the reference `Window`,
  which is the last `min(n, |s|)` elements of `s`.
- `reader.dfy` (`Reader`): `Step` handles one line, `Run` folds `Step` over
  lines, and `Lines` and `ReadString` model the `bufio` line reads.
  `ReadSpectrum` is the whole reader, and `ReadLoop` is the loop as written,
  proved equal to `ReadSpectrum`.
- `sweeps.dfy` (`Sweeps`): a second definition of what gets published, written
  without the state machine. The groups of lines between empty lines are the
  frames (`Frames`). Only groups closed by an empty line are published
  (`Published`), and the history is their last `SpectrumCount` (`RunPublishes`).
- `scenarios.dfy` (`Scenarios`): worked line sequences and input texts.

The model's `panic("unexpected output: " + line)` is the result
`Failure(UnexpectedOutput(line))`. `Reader.Message` builds the panic text from
it. The end of input stands for the read error that ends the loop.

A sample line is split on the single character ' ' and must give exactly two
pieces, so any non-empty line with a number of spaces other than one is
rejected. A tab is an ordinary character: "0\t-10" is rejected, while
"0 -10\t" is accepted and reads 0. A leading or trailing space makes one of
the two pieces empty: " -10" is accepted and reads -10, and "-10 " is accepted
and reads 0 (`Scenarios.TabIsOrdinary`, `Scenarios.EdgeSpaceAccepted`). An
unparsable reading is silently read as 0.

## Model

| member | source | states |
|---|---|---|
| Splitting.Split | main.go:121-122 | a line with k spaces splits into k + 1 fields, and no field contains a space, so "exactly two fields" means "exactly one space" |
| Splitting.JoinSplit | main.go:121 | joining the fields back with the separator restores the line exactly |
| Splitting.SplitJoin | main.go:121 | splitting a join of separator-free pieces gives those pieces back |
| Splitting.SplitOnce | main.go:121-125 | a line with exactly one space splits into the text before that space and the text after it |
| Splitting.SplitAtFirst | main.go:99-104 | the first piece ends at the first separator, and the remaining pieces are the split of what follows |
| Splitting.SplitConcat | main.go:99-102 | splitting a concatenation joins the last piece of the left part to the first piece of the right part |
| Decimal.Atoi | main.go:125 | a reading with a leading '-' is at most 0, any other accepted reading is at least 0, and a non-zero reading comes only from well-formed text (Go's 64-bit clamping is not modelled; see "Left out") |
| Decimal.AtoiFormat | main.go:125 | the printed decimal form of every integer reads back as that integer |
| Decimal.AtoiPlus | main.go:125 | an explicit '+' before the digits is accepted and keeps the value |
| Decimal.LeadingZero | main.go:125 | a zero put in front of the digits, with or without a '+' or '-' sign before it, is accepted and does not change the reading: "007" reads as "7" and "-007" as "-7" |
| Decimal.SyntaxErrorsReadZero | main.go:125 | empty text, a bare sign, a stray character or a trailing '\r' read as 0 |
| History.Push | main.go:107-114 | a push into a history within capacity stays within 100 frames and puts the new frame last; below capacity the old frames stay as they were, and at capacity exactly the oldest one is dropped |
| History.PushIsWindow | main.go:108-112 | within capacity, a push equals taking the last 100 frames of the history followed by the new frame |
| History.PushAllIsWindow | main.go:107-114 | starting from any history of at most SpectrumCount frames (100, main.go:19), such as the empty one, any run of pushes keeps exactly the most recent 100 frames, in their original order |
| Reader.Message | main.go:123 | the panic text is the 19-character prefix "unexpected output: " followed by the rejected line, unchanged |
| Reader.MessageNamesLine | main.go:123 | two faults give the same panic text exactly when they name the same line |
| Reader.SampleLineSplitsInTwo | main.go:121-122 | a line passes the two-field check exactly when it holds one space |
| Reader.Reading | main.go:121-125 | on a line that passes the two-field check, the reading is `Atoi` of the second of the two fields `strings.Split` gives; a line with no space, which the reader rejects before reading, has no second field and reads 0 |
| Reader.StepEmpty | main.go:106-114 | an empty line pushes the frame in progress and starts an empty one; within capacity the new history is the last 100 of the old history followed by that frame |
| Reader.EmptyLineAppends | main.go:106-118 | below capacity, a leading empty line appends the frame in progress to the history and the run goes on with the next line |
| Reader.SampleLineExtends | main.go:121-126 | a leading sample line appends its reading to the frame in progress and the run goes on with the next line |
| Reader.Step | main.go:104-126 | an empty line publishes the frame in progress, even an empty one, and starts an empty frame; a non-empty line is accepted exactly when it has one space and then appends the reading of its second field, leaving the history as it was; any other line fails, naming that line |
| Reader.Run | main.go:98-127 | a run succeeds exactly when no line is malformed; a failure names a malformed line; a run started within capacity ends within capacity |
| Reader.RunFailureNamesLine | main.go:121-124 | the line a failed run names is one of the lines it was given |
| Reader.Lines | main.go:99-104 | the input holds as many lines as '\n' characters, and no line keeps its '\n' |
| Reader.ReadString | main.go:99-102 | a read returns the text up to and including the next '\n' plus the rest of the input, and returns nothing when no '\n' is left |
| Reader.ReadLine | main.go:99-104 | one read with its '\n' removed gives the first line, and the lines of the remaining input follow it |
| Reader.NoLines | main.go:99-102 | input with no '\n' yields no line |
| Reader.ReadSpectrum | main.go:96-127 | the reader succeeds exactly when every line of its input is an empty line or a sample line; its history holds at most 100 frames; a failure names a malformed line of the input |
| Reader.ReadLoop | main.go:96-127 | the loop as written (read, strip, push on an empty line, split and append otherwise, stop at end of input) gives the same result as ReadSpectrum, and its history never exceeds 100 frames |
| Sweeps.Frames | main.go:106-126 | a line sequence with k empty lines describes k + 1 frames, the last of them still open |
| Sweeps.RunFrames | main.go:98-127 | from any state within capacity, well-formed lines publish the closed frames into the last-100 window, with the first closed frame continuing the frame in progress, and leave the open group in progress |
| Sweeps.RunPublishes | main.go:97-127 | from the start state, well-formed lines leave the last 100 frames closed by an empty line in the history, and the samples after the last empty line in progress |
| Sweeps.RunStopsAtFirstMalformed | main.go:121-124 | the reader fails at the first malformed line, naming it, whatever follows that line |
| Sweeps.RunAppend | main.go:98-127 | running two line sequences one after the other is the same as running their concatenation |
| Sweeps.SamplesOnlyExtend | main.go:121-126 | sample lines only extend the frame in progress with their readings, in order, and leave the history as it was |
| Sweeps.UnterminatedFrameUnpublished | main.go:98-127 | samples after the last empty line never reach the history |
| Sweeps.UnterminatedChunkIgnored | main.go:99-102 | text without a '\n' at the end of the input adds no line and changes no outcome |
| Sweeps.LinesOfText | main.go:99-104 | lines each followed by '\n', then any unterminated text, read back as exactly those lines |
| Sweeps.ReadSpectrumOutcome | main.go:96-127 | on its input text the reader either publishes the last 100 closed frames, or fails at the first malformed line |
| Sweeps.FirstMalformed | main.go:121-124 | when some line is malformed, the returned index is a malformed line with no malformed line before it |
| Scenarios.ReadingOfPrinted | main.go:121-126 | the printed line "<bucket> <rssi>" is a sample line, and its reading is rssi |
| Scenarios.ScenarioReadings | main.go:125 | "0 -10", "1 -20" and "0 -5" read as -10, -20 and -5 |
| Scenarios.TabIsOrdinary | main.go:121-125 | "0\t-10" is rejected, while "0 -10\t" is accepted and reads 0 |
| Scenarios.DoubleSpaceRejected | main.go:121-123 | "0  -10", with two spaces in a row, is rejected |
| Scenarios.EdgeSpaceAccepted | main.go:121-125 | " -10" is accepted and reads -10, and "-10 " is accepted and reads 0 |
| Scenarios.EmptyFramesArePublished | main.go:106-114 | a sample line followed by two empty lines publishes the one-sample frame and then an empty frame |
| Scenarios.EmptyFrameScenario | main.go:106-114 | the lines "0 -10", "", "" give the history [[-10], []] |
| Scenarios.TwoSweeps | main.go:98-127 | two samples, an empty line, one sample and an empty line publish a two-reading frame and then a one-reading frame |
| Scenarios.SweepScenario | main.go:96-127 | the text "0 -10\n1 -20\n\n0 -5\n\n" leaves the frames [-10, -20] and [-5] in the history |

## Left out

- Starting, waiting for and exiting around `ubertooth-specan` (main.go:75-94, main.go:129-132): this is process I/O. The model's input is the tool's whole standard output, and its result is the history when that output ends.
- Signal forwarding (main.go:25, main.go:82-86): this is OS signal handling and concurrency.
- `SpectrumLock` and the goroutine split: the model is sequential, so each push is atomic by construction.
- The redraw request after each push (main.go:115-117) and the window setup (main.go:27-50): these are calls into a GUI library that is not part of this model.
- `drawSpectrum` (main.go:52-72): this is floating-point drawing through a foreign draw context.
- The magnitude conversion `math.Pow(10, -rssi/10)` (main.go:126): this is floating point. Frames hold the integer rssi readings instead. The conversion is applied to each sample on its own, so the history of magnitudes is this history with the conversion applied to every sample.
- Decimal.Atoi: does not model the clamping `strconv.Atoi` applies to values outside the 64-bit range, because Dafny integers are unbounded. Well-formed text with such a value keeps its exact value here. The overflow check also runs before the rest of the text is read. So text whose digits overflow before a stray character, such as "99999999999999999999x", reads as the clamped bound in Go and as 0 here. The model's "a non-zero reading comes only from well-formed text" holds for the model only, not for such text in Go.
- Read errors other than end of input also end the loop in the source. The model treats the input it is given as everything read before that point.

=== FILE: decimal.dfy ===
/**
 The reading of a sample's second field: Go's `strconv.Atoi` with its error
 discarded. A well-formed decimal (an optional '+' or '-' followed by one or
 more ASCII digits, leading zeros allowed) gives its value; any other text
 gives 0, the value `Atoi` returns alongside a syntax error.
 */
module Decimal {

  predicate IsDigit(c: char)
  {
    '0' <= c <= '9'
  }

  predicate AllDigits(s: string)
  {
    forall i :: 0 <= i < |s| ==> IsDigit(s[i])
  }

  predicate IsSign(c: char)
  {
    c == '+' || c == '-'
  }

  function DigitValue(c: char): nat
    requires IsDigit(c)
  {
    c as int - '0' as int
  }

  function DigitChar(d: nat): char
    requires d < 10
  {
    ('0' as int + d) as char
  }

  /** The value of a run of digits, most significant digit first. */
  function DigitsValue(s: string): nat
    requires AllDigits(s)
  {
    if |s| == 0 then 0 else 10 * DigitsValue(s[..|s| - 1]) + DigitValue(s[|s| - 1])
  }

  /** The text after an optional leading sign. */
  function Unsigned(s: string): string
  {
    if |s| > 0 && IsSign(s[0]) then s[1..] else s
  }

  /** Text that `strconv.Atoi` accepts without a syntax error. */
  predicate WellFormed(s: string)
  {
    |Unsigned(s)| > 0 && AllDigits(Unsigned(s))
  }

  /** `strconv.Atoi(s)` with its error ignored: the signed value, or 0 on a syntax error. */
  function Atoi(s: string): (n: int)
    ensures WellFormed(s) && s[0] == '-' ==> n <= 0
    ensures WellFormed(s) && s[0] != '-' ==> n >= 0
    ensures n != 0 ==> WellFormed(s)
  {
    if !WellFormed(s) then 0
    else if s[0] == '-' then -(DigitsValue(s[1..]) as int)
    else DigitsValue(Unsigned(s))
  }

  /** Decimal text of a natural number, without sign or leading zeros. */
  function FormatNat(n: nat): string
  {
    if n < 10 then [DigitChar(n)] else FormatNat(n / 10) + [DigitChar(n % 10)]
  }

  /** Decimal text of an integer as the telemetry source prints it: a '-' for negatives, no '+'. */
  function Format(n: int): string
  {
    if n < 0 then "-" + FormatNat(-n) else FormatNat(n)
  }

  lemma {:induction false} FormatNatValue(n: nat)
    ensures |FormatNat(n)| > 0 && AllDigits(FormatNat(n))
    ensures DigitsValue(FormatNat(n)) == n
  {
    if n >= 10 {
      FormatNatValue(n / 10);
      var s := FormatNat(n);
      assert s[..|s| - 1] == FormatNat(n / 10);
    }
  }

  /** Parsing the printed form of any integer gives that integer back. */
  lemma AtoiFormat(n: int)
    ensures WellFormed(Format(n))
    ensures Atoi(Format(n)) == n
  {
    var s := Format(n);
    if n < 0 {
      FormatNatValue(-n);
      assert s[1..] == FormatNat(-n);
    } else {
      FormatNatValue(n);
      assert !IsSign(s[0]);
    }
  }

  /** An explicit '+' is accepted and changes nothing. */
  lemma AtoiPlus(n: nat)
    ensures WellFormed("+" + Format(n))
    ensures Atoi("+" + Format(n)) == n
  {
    FormatNatValue(n);
    var s := "+" + Format(n);
    assert s[1..] == FormatNat(n);
  }

  /** A leading zero digit does not change the value of a run of digits. */
  lemma {:induction false} DigitsLeadingZero(d: string)
    requires AllDigits(d)
    ensures AllDigits("0" + d)
    ensures DigitsValue("0" + d) == DigitsValue(d)
  {
    var s := "0" + d;
    assert AllDigits(s) by {
      forall i | 0 <= i < |s| ensures IsDigit(s[i]) {
        if i > 0 { assert s[i] == d[i - 1]; }
      }
    }
    if |d| > 0 {
      assert s[..|s| - 1] == "0" + d[..|d| - 1];
      DigitsLeadingZero(d[..|d| - 1]);
    }
  }

  /** Leading zeros are accepted, with or without a sign, and do not change the value. */
  lemma LeadingZero(d: string)
    requires |d| > 0 && AllDigits(d)
    ensures WellFormed("0" + d) && Atoi("0" + d) == Atoi(d)
    ensures WellFormed("+0" + d) && Atoi("+0" + d) == Atoi("+" + d)
    ensures WellFormed("-0" + d) && Atoi("-0" + d) == Atoi("-" + d)
  {
    DigitsLeadingZero(d);
    var z, p, m := "0" + d, "+0" + d, "-0" + d;
    assert !IsSign(z[0]) && !IsSign(d[0]);
    assert Unsigned(z) == z;
    assert p[1..] == z && ("+" + d)[1..] == d;
    assert m[1..] == z && ("-" + d)[1..] == d;
  }

  /** Text with no digit, or with anything but digits after the sign, reads as 0. */
  lemma SyntaxErrorsReadZero()
    ensures Atoi("") == 0 && Atoi("-") == 0 && Atoi("+") == 0
    ensures Atoi("12a") == 0 && Atoi(" 7") == 0 && Atoi("-10\r") == 0 && Atoi("-10\t") == 0
    ensures Atoi("--1") == 0
  {
  }
}

=== FILE: history.dfy ===
/**
 The bounded history of frames behind the chart: an insertion-ordered
 sequence, oldest first, that holds at most `SpectrumCount` frames and drops
 its oldest frame to make room for a new one.
 */
module History {

  /** Capacity of the history. */
  const SpectrumCount: nat := 100

  /** One sweep: the readings of its sample lines, in order. */
  type Frame = seq<int>

  /** The last `min(n, |s|)` elements of `s`, in their original order. */
  function Window<T>(s: seq<T>, n: nat): (w: seq<T>)
    ensures |w| == if |s| <= n then |s| else n
    ensures w == s[|s| - |w|..]
  {
    if |s| <= n then s else s[|s| - n..]
  }

  /**
   Appends a finished frame. The oldest frame is shifted out first when the
   history holds exactly `SpectrumCount` frames.
   */
  function Push<T>(h: seq<T>, f: T): (r: seq<T>)
    ensures |h| <= SpectrumCount ==> |r| <= SpectrumCount
    ensures |r| > 0 && r[|r| - 1] == f
    ensures |h| < SpectrumCount ==> |r| == |h| + 1 && r[..|h|] == h
    ensures |h| == SpectrumCount ==> |r| == |h| && r[..|r| - 1] == h[1..]
  {
    var kept := if |h| == SpectrumCount then h[1..] else h;
    kept + [f]
  }

  /** Pushes each of `fs` in turn. */
  function PushAll<T>(h: seq<T>, fs: seq<T>): seq<T>
    decreases |fs|
  {
    if |fs| == 0 then h else PushAll(Push(h, fs[0]), fs[1..])
  }

  /** Within capacity, a push keeps exactly the most recent `SpectrumCount` frames. */
  lemma PushIsWindow<T>(h: seq<T>, f: T)
    ensures |h| <= SpectrumCount ==> Push(h, f) == Window(h + [f], SpectrumCount)
  {
  }

  /** Taking a window before appending more changes nothing once the final window is taken. */
  lemma WindowOfWindow<T>(s: seq<T>, t: seq<T>, n: nat)
    ensures Window(Window(s, n) + t, n) == Window(s + t, n)
  {
    if |s| > n {
      var u := s + t;
      assert Window(s, n) + t == u[|s| - n..];
      assert u[|s| - n..][|t|..] == u[|u| - n..];
    }
  }

  /**
   The FIFO law: from a history within capacity, pushing any number of frames
   leaves exactly the most recent `SpectrumCount` of all frames, in order.
   */
  lemma {:induction false} PushAllIsWindow<T>(h: seq<T>, fs: seq<T>)
    requires |h| <= SpectrumCount
    ensures PushAll(h, fs) == Window(h + fs, SpectrumCount)
    decreases |fs|
  {
    if |fs| == 0 {
      assert h + fs == h;
    } else {
      var h' := Push(h, fs[0]);
      PushAllIsWindow(h', fs[1..]);
      PushIsWindow(h, fs[0]);
      WindowOfWindow(h + [fs[0]], fs[1..], SpectrumCount);
      assert h + [fs[0]] + fs[1..] == h + fs;
    }
  }
}

=== FILE: reader.dfy ===
/**
 The ingestion loop of `readSpectrum`: the source's standard output is cut
 into '\n'-terminated lines; a sample line "<bucket> <rssi>" adds the reading
 of its second field to the frame being built, and an empty line pushes that
 frame, possibly empty, into the bounded history and starts a new one. Any
 other non-empty line stops the reader with "unexpected output: " + line.
 */
module Reader {
  import opened Wrappers
  import opened Splitting
  import Decimal
  import opened History

  /** The reader between two lines: the published history and the frame being built. */
  datatype State = State(history: seq<Frame>, current: Frame)

  /** Empty history, empty frame: the state before the first line. */
  const Start := State([], [])

  /** Why the reader stopped early. */
  datatype Fault = UnexpectedOutput(line: string)

  /** The panic text: a fixed 19-character prefix, then the offending line. */
  function Message(f: Fault): (m: string)
    ensures |m| == 19 + |f.line| && m[..19] == "unexpected output: " && m[19..] == f.line
  {
    "unexpected output: " + f.line
  }

  /** Different rejected lines give different panic texts. */
  lemma MessageNamesLine(f: Fault, g: Fault)
    ensures Message(f) == Message(g) <==> f == g
  {
    if Message(f) == Message(g) {
      assert f.line == Message(f)[19..] == Message(g)[19..] == g.line;
    }
  }

  /** A non-empty line is a sample line when it holds exactly one space. */
  predicate IsSampleLine(line: string)
  {
    Count(line, ' ') == 1
  }

  /** A line is a sample line exactly when splitting it at ' ' gives two fields. */
  lemma SampleLineSplitsInTwo(line: string)
    ensures IsSampleLine(line) <==> |Split(line, ' ')| == 2
  {
  }

  /** A line the reader rejects: non-empty and not a sample line. */
  predicate Malformed(line: string)
  {
    |line| > 0 && !IsSampleLine(line)
  }

  predicate WellFormedLines(lines: seq<string>)
  {
    forall i :: 0 <= i < |lines| ==> !Malformed(lines[i])
  }

  /** The text after the first space of a line; the first field is ignored. */
  function SecondField(line: string): string
  {
    if ' ' in line then line[IndexOf(line, ' ') + 1..] else []
  }

  /** On a sample line, the text after the space is the second of the two fields ' ' splits it into. */
  lemma SecondFieldIsSplit(line: string)
    ensures IsSampleLine(line) ==> |Split(line, ' ')| == 2 && Split(line, ' ')[1] == SecondField(line)
  {
    if IsSampleLine(line) {
      SplitOnce(line, ' ');
    }
  }

  /**
   The reading a sample line contributes to its frame: its second field
   through `Atoi`. A line without a space has no second field and reads 0.
   */
  function Reading(line: string): (r: int)
    ensures IsSampleLine(line) ==> r == Decimal.Atoi(Split(line, ' ')[1])
    ensures ' ' !in line ==> r == 0
  {
    SecondFieldIsSplit(line);
    Decimal.Atoi(SecondField(line))
  }

  /** Processing of one line, its '\n' already removed. */
  function Step(s: State, line: string): (r: Result<State, Fault>)
    ensures |line| == 0 ==> r.Success? && r.value.current == []
    ensures |line| == 0 ==> |r.value.history| > 0 && r.value.history[|r.value.history| - 1] == s.current
    ensures r.Success? <==> !Malformed(line)
    ensures Malformed(line) ==> r.error == UnexpectedOutput(line)
    ensures |line| > 0 && r.Success? ==> r.value == State(s.history, s.current + [Reading(line)])
  {
    if |line| == 0 then
      Success(State(Push(s.history, s.current), []))
    else if !IsSampleLine(line) then Failure(UnexpectedOutput(line))
    else Success(State(s.history, s.current + [Reading(line)]))
  }

  /** An empty line publishes the frame in progress. */
  lemma StepEmpty(s: State)
    ensures Step(s, []) == Success(State(Push(s.history, s.current), []))
    ensures |s.history| <= SpectrumCount ==>
      Step(s, []).value.history == Window(s.history + [s.current], SpectrumCount)
  {
    PushIsWindow(s.history, s.current);
  }

  /** Below capacity, a leading empty line appends the frame in progress to the history. */
  lemma EmptyLineAppends(s: State, lines: seq<string>)
    requires |s.history| < SpectrumCount
    requires |lines| > 0 && lines[0] == []
    ensures Run(s, lines) == Run(State(s.history + [s.current], []), lines[1..])
  {
    StepEmpty(s);
    assert Push(s.history, s.current) == s.history + [s.current];
  }

  /** A leading sample line extends the frame in progress and the run goes on from there. */
  lemma SampleLineExtends(s: State, lines: seq<string>)
    requires |lines| > 0 && |lines[0]| > 0 && IsSampleLine(lines[0])
    ensures Run(s, lines) == Run(State(s.history, s.current + [Reading(lines[0])]), lines[1..])
  {
  }

  /** Processing of a sequence of lines, stopping at the first rejected one. */
  function Run(s: State, lines: seq<string>): (r: Result<State, Fault>)
    ensures r.Success? <==> WellFormedLines(lines)
    ensures r.Failure? ==> Malformed(r.error.line)
    ensures r.Success? && |s.history| <= SpectrumCount ==> |r.value.history| <= SpectrumCount
    decreases |lines|
  {
    if |lines| == 0 then Success(s)
    else
      match Step(s, lines[0])
      case Failure(e) => Failure(e)
      case Success(next) =>
        WellFormedFirst(lines);
        Run(next, lines[1..])
  }

  /** A non-empty line sequence is well formed when its first line is and the others are. */
  lemma WellFormedFirst(lines: seq<string>)
    requires |lines| > 0
    ensures WellFormedLines(lines) <==> !Malformed(lines[0]) && WellFormedLines(lines[1..])
  {
    assert forall i :: 0 < i < |lines| ==> lines[i] == lines[1..][i - 1];
  }

  /** The line a failed run names is one of the lines it was given. */
  lemma {:induction false} RunFailureNamesLine(s: State, lines: seq<string>)
    ensures Run(s, lines).Failure? ==> Run(s, lines).error.line in lines
    decreases |lines|
  {
    if |lines| > 0 && Step(s, lines[0]).Success? {
      var rest := lines[1..];
      RunFailureNamesLine(Step(s, lines[0]).value, rest);
      if Run(s, lines).Failure? {
        var k :| 0 <= k < |rest| && rest[k] == Run(s, lines).error.line;
        assert lines[k + 1] == rest[k];
      }
    }
  }

  /** The complete lines of the input, each without its '\n'; text after the last '\n' is not a line. */
  function Lines(input: string): (lines: seq<string>)
    ensures |lines| == Count(input, '\n')
    ensures forall i :: 0 <= i < |lines| ==> '\n' !in lines[i]
  {
    var parts := Split(input, '\n');
    parts[..|parts| - 1]
  }

  /** The history `readSpectrum` holds when its input ends, or why it stopped. */
  function ReadSpectrum(input: string): (r: Result<seq<Frame>, Fault>)
    ensures r.Success? <==> WellFormedLines(Lines(input))
    ensures r.Success? ==> |r.value| <= SpectrumCount
    ensures r.Failure? ==> Malformed(r.error.line) && r.error.line in Lines(input)
  {
    RunFailureNamesLine(Start, Lines(input));
    match Run(Start, Lines(input))
    case Success(s) => Success(s.history)
    case Failure(e) => Failure(e)
  }

  /**
   `bufio.Reader.ReadString('\n')`: the text up to and including the next
   '\n' and what follows it, or nothing when no '\n' is left.
   */
  function ReadString(buf: string): (r: Option<(string, string)>)
    ensures r.None? <==> '\n' !in buf
    ensures r.Some? ==> r.value.0 + r.value.1 == buf
    ensures r.Some? ==> |r.value.0| > 0 && r.value.0[|r.value.0| - 1] == '\n'
    ensures r.Some? ==> '\n' !in r.value.0[..|r.value.0| - 1]
  {
    if '\n' in buf then
      var i := IndexOf(buf, '\n');
      assert buf[..i + 1] + buf[i + 1..] == buf;
      assert buf[..i + 1][..i] == buf[..i];
      Some((buf[..i + 1], buf[i + 1..]))
    else None
  }

  /** Reading up to the next '\n' yields the first line; the lines of what is left follow it. */
  lemma ReadLine(buf: string)
    requires '\n' in buf
    ensures var chunk, more := ReadString(buf).value.0, ReadString(buf).value.1;
      Lines(buf) == [chunk[..|chunk| - 1]] + Lines(more)
  {
    var i := IndexOf(buf, '\n');
    SplitAtFirst(buf, '\n');
    assert ReadString(buf).value.0[..i] == buf[..i];
  }

  /** A text without '\n' has no lines. */
  lemma NoLines(input: string)
    requires '\n' !in input
    ensures Lines(input) == []
  {
    SplitNoSeparator(input, '\n');
  }

  /** Running a non-empty sequence of lines is one step followed by the rest. */
  lemma RunFirst(s: State, line: string, lines: seq<string>)
    ensures Step(s, line).Failure? ==> Run(s, [line] + lines) == Failure(Step(s, line).error)
    ensures Step(s, line).Success? ==> Run(s, [line] + lines) == Run(Step(s, line).value, lines)
  {
  }

  /**
   The read loop of `readSpectrum` as written: read up to the next '\n', stop
   when there is none, strip the '\n', push on an empty line, otherwise split
   on ' ', reject anything but two fields and append the second field's reading.
   */
  method ReadLoop(input: string) returns (r: Result<seq<Frame>, Fault>)
    ensures r == ReadSpectrum(input)
    ensures r.Success? ==> |r.value| <= SpectrumCount
  {
    var rest := input;
    var history: seq<Frame> := [];
    var current: Frame := [];
    while true
      invariant |history| <= SpectrumCount
      invariant Run(Start, Lines(input)) == Run(State(history, current), Lines(rest))
      decreases |rest|
    {
      var read := ReadString(rest);
      if read.None? {
        NoLines(rest);
        break;
      }
      var (chunk, more) := read.value;
      var line := chunk[..|chunk| - 1];
      ReadLine(rest);
      RunFirst(State(history, current), line, Lines(more));
      if |line| == 0 {
        history := Push(history, current);
        current := [];
        rest := more;
        continue;
      }
      var comps := Split(line, ' ');
      SampleLineSplitsInTwo(line);
      if |comps| != 2 {
        return Failure(UnexpectedOutput(line));
      }
      current := current + [Decimal.Atoi(comps[1])];
      rest := more;
    }
    return Success(history);
  }
}

=== FILE: scenarios.dfy ===
/** Concrete line sequences and texts run through the reader. */
module Scenarios {
  import opened Wrappers
  import opened Splitting
  import Decimal
  import opened History
  import opened Reader
  import opened Sweeps

  /** The second field of "<bucket> <rssi>" reads as the printed rssi. */
  lemma ReadingOfPrinted(bucket: nat, rssi: int)
    ensures IsSampleLine(Decimal.FormatNat(bucket) + " " + Decimal.Format(rssi))
    ensures Reading(Decimal.FormatNat(bucket) + " " + Decimal.Format(rssi)) == rssi
  {
    var b, v := Decimal.FormatNat(bucket), Decimal.Format(rssi);
    var line := b + " " + v;
    Decimal.FormatNatValue(bucket);
    Decimal.AtoiFormat(rssi);
    assert ' ' !in b by {
      forall i | 0 <= i < |b| ensures b[i] != ' ' {
        assert Decimal.IsDigit(b[i]);
      }
    }
    assert ' ' !in v by {
      forall i | 0 <= i < |v| ensures v[i] != ' ' {
        if rssi < 0 && i == 0 {
          assert v[0] == '-';
        } else if rssi < 0 {
          assert v[i] == Decimal.FormatNat(-rssi)[i - 1];
          Decimal.FormatNatValue(-rssi);
          assert Decimal.IsDigit(v[i]);
        } else {
          Decimal.FormatNatValue(rssi);
          assert Decimal.IsDigit(v[i]);
        }
      }
    }
    CountConcat(b + " ", v, ' ');
    CountConcat(b, " ", ' ');
    CountZero(b, ' ');
    CountZero(v, ' ');
    assert line[|b|] == ' ';
    assert line[..|b|] == b;
    assert IndexOf(line, ' ') == |b|;
    assert line[|b| + 1..] == v;
  }

  /** The sample lines of the scenarios below, as a source prints them. */
  lemma PrintedLines()
    ensures Decimal.FormatNat(0) + " " + Decimal.Format(-10) == "0 -10"
    ensures Decimal.FormatNat(1) + " " + Decimal.Format(-20) == "1 -20"
    ensures Decimal.FormatNat(0) + " " + Decimal.Format(-5) == "0 -5"
  {
  }

  /** The readings of the scenario's sample lines. */
  lemma ScenarioReadings()
    ensures IsSampleLine("0 -10") && Reading("0 -10") == -10
    ensures IsSampleLine("1 -20") && Reading("1 -20") == -20
    ensures IsSampleLine("0 -5") && Reading("0 -5") == -5
  {
    PrintedLines();
    ReadingOfPrinted(0, -10);
    ReadingOfPrinted(1, -20);
    ReadingOfPrinted(0, -5);
  }

  /** The text "-10" reads as -10. */
  lemma MinusTen()
    ensures Decimal.Atoi("-10") == -10
  {
    Decimal.AtoiFormat(-10);
    assert Decimal.Format(-10) == "-10";
  }

  /** A tab is an ordinary character: it neither separates fields nor belongs to a number. */
  lemma TabIsOrdinary()
    ensures Malformed("0\t-10")
    ensures IsSampleLine("0 -10\t") && Reading("0 -10\t") == 0
  {
    Decimal.SyntaxErrorsReadZero();
    assert SecondField("0 -10\t") == "-10\t";
  }

  /** Two spaces in a row make three fields, so the line is rejected. */
  lemma DoubleSpaceRejected()
    ensures Malformed("0  -10")
  {
  }

  /** A leading or trailing space leaves one of the two fields empty, and the line is accepted. */
  lemma EdgeSpaceAccepted()
    ensures IsSampleLine(" -10") && Reading(" -10") == -10
    ensures IsSampleLine("-10 ") && Reading("-10 ") == 0
  {
    MinusTen();
    Decimal.SyntaxErrorsReadZero();
    assert SecondField(" -10") == "-10";
    assert SecondField("-10 ") == "";
  }

  /**
   A sample line followed by two empty lines publishes the one-sample frame and
   then an empty frame, and leaves nothing in progress.
   */
  lemma EmptyFramesArePublished(line: string)
    requires |line| > 0 && IsSampleLine(line)
    ensures Run(Start, [line, "", ""]) == Success(State([[Reading(line)], []], []))
  {
    var r := Reading(line);
    var lines := [line, "", ""];
    SampleLineExtends(Start, lines);
    assert Start.current + [r] == [r];
    var rest := lines[1..];
    assert rest[0] == [];
    EmptyLineAppends(State([], [r]), rest);
    assert [] + [[r]] == [[r]];
    var last := rest[1..];
    assert last[0] == [] && |last[1..]| == 0;
    EmptyLineAppends(State([[r]], []), last);
    assert [[r]] + [[]] == [[r], []];
  }

  /** The scenario "0 -10", "", "" publishes [-10] and then an empty frame. */
  lemma EmptyFrameScenario()
    ensures Run(Start, ["0 -10", "", ""]) == Success(State([[-10], []], []))
  {
    ScenarioReadings();
    EmptyFramesArePublished("0 -10");
  }

  /** A leading sample line and empty line publish the frame in progress with that sample appended. */
  lemma SampleThenEmpty(s: State, lines: seq<string>)
    requires |s.history| < SpectrumCount
    requires |lines| > 1 && |lines[0]| > 0 && IsSampleLine(lines[0]) && lines[1] == []
    ensures Run(s, lines) == Run(State(s.history + [s.current + [Reading(lines[0])]], []), lines[2..])
  {
    var next := State(s.history, s.current + [Reading(lines[0])]);
    SampleLineExtends(s, lines);
    EmptyLineAppends(next, lines[1..]);
    assert lines[1..][1..] == lines[2..];
  }

  /** Two leading sample lines and an empty line publish the frame in progress with both samples appended. */
  lemma TwoSamplesThenEmpty(s: State, lines: seq<string>)
    requires |s.history| < SpectrumCount
    requires |lines| > 2 && lines[2] == []
    requires |lines[0]| > 0 && IsSampleLine(lines[0]) && |lines[1]| > 0 && IsSampleLine(lines[1])
    ensures Run(s, lines) ==
      Run(State(s.history + [s.current + [Reading(lines[0]), Reading(lines[1])]], []), lines[3..])
  {
    var next := State(s.history, s.current + [Reading(lines[0])]);
    SampleLineExtends(s, lines);
    SampleThenEmpty(next, lines[1..]);
    assert lines[1..][2..] == lines[3..];
    assert next.current + [Reading(lines[1])] == s.current + [Reading(lines[0]), Reading(lines[1])];
  }

  /** Two sweeps over an abstract five-line sequence, stated by position. */
  lemma TwoSweepsAt(lines: seq<string>)
    requires |lines| == 5 && lines[2] == [] && lines[4] == []
    requires |lines[0]| > 0 && IsSampleLine(lines[0]) && |lines[1]| > 0 && IsSampleLine(lines[1])
    requires |lines[3]| > 0 && IsSampleLine(lines[3])
    ensures Run(Start, lines) ==
      Success(State([[Reading(lines[0]), Reading(lines[1])], [Reading(lines[3])]], []))
  {
    var ra, rb, rc := Reading(lines[0]), Reading(lines[1]), Reading(lines[3]);
    var rest := lines[3..];
    assert Run(Start, lines) == Run(State([[ra, rb]], []), rest) by {
      TwoSamplesThenEmpty(Start, lines);
      assert Start.current + [ra, rb] == [ra, rb];
      assert Start.history + [[ra, rb]] == [[ra, rb]];
    }
    assert Run(State([[ra, rb]], []), rest) == Success(State([[ra, rb], [rc]], [])) by {
      assert rest[0] == lines[3] && rest[1] == [] && |rest[2..]| == 0;
      SampleThenEmpty(State([[ra, rb]], []), rest);
      assert [] + [rc] == [rc];
      assert [[ra, rb]] + [[rc]] == [[ra, rb], [rc]];
    }
  }

  /**
   Two samples, an empty line, a sample, an empty line: two frames are
   published, the first with two readings and the second with one.
   */
  lemma TwoSweeps(a: string, b: string, c: string)
    requires |a| > 0 && IsSampleLine(a)
    requires |b| > 0 && IsSampleLine(b)
    requires |c| > 0 && IsSampleLine(c)
    ensures Run(Start, [a, b, "", c, ""]) == Success(State([[Reading(a), Reading(b)], [Reading(c)]], []))
  {
    TwoSweepsAt([a, b, "", c, ""]);
  }

  /**
   The text "0 -10\n1 -20\n\n0 -5\n\n" leaves the frames [-10, -20] and [-5]
   in the history.
   */
  lemma SweepScenario()
    ensures ReadSpectrum("0 -10\n1 -20\n\n0 -5\n\n") == Success([[-10, -20], [-5]])
  {
    var text := "0 -10\n1 -20\n\n0 -5\n\n";
    var lines := ["0 -10", "1 -20", "", "0 -5", ""];
    var parts := lines + [""];
    assert Join(parts[5..], '\n') == "";
    assert Join(parts[4..], '\n') == "\n";
    assert Join(parts[3..], '\n') == "0 -5\n\n";
    assert Join(parts[2..], '\n') == "\n0 -5\n\n";
    assert Join(parts[1..], '\n') == "1 -20\n\n0 -5\n\n";
    assert Join(parts, '\n') == text;
    assert forall i :: 0 <= i < |lines| ==> '\n' !in lines[i];
    Sweeps.LinesOfText(lines, "");
    ScenarioReadings();
    TwoSweeps("0 -10", "1 -20", "0 -5");
  }
}

=== FILE: splitting.dfy ===
/**
 Splitting a sequence at every occurrence of a one-element separator, the way
 Go's `strings.Split(s, sep)` splits a string on a one-character separator:
 `k` occurrences of the separator give `k + 1` pieces, empty pieces included.
 The same operation cuts the reader's input text into lines at '\n', a line
 into its fields at ' ', and a sequence of lines into frames at the empty line.
 */
module Splitting {

  /** Number of occurrences of `x` in `s`. */
  function Count<T(==)>(s: seq<T>, x: T): nat
  {
    if |s| == 0 then 0 else (if s[0] == x then 1 else 0) + Count(s[1..], x)
  }

  /** Position of the first occurrence of `x` in `s`. */
  function IndexOf<T(==)>(s: seq<T>, x: T): (i: nat)
    requires x in s
    ensures i < |s| && s[i] == x
    ensures x !in s[..i]
  {
    if s[0] == x then 0 else 1 + IndexOf(s[1..], x)
  }

  /** The pieces of `s` between consecutive occurrences of `sep`. */
  function Split<T(==)>(s: seq<T>, sep: T): (parts: seq<seq<T>>)
    ensures |parts| == Count(s, sep) + 1
    ensures forall i :: 0 <= i < |parts| ==> sep !in parts[i]
  {
    if |s| == 0 then [[]]
    else
      var rest := Split(s[1..], sep);
      if s[0] == sep then [[]] + rest
      else [[s[0]] + rest[0]] + rest[1..]
  }

  /** The pieces glued back together with one `sep` between neighbours. */
  function Join<T>(parts: seq<seq<T>>, sep: T): seq<T>
  {
    if |parts| == 0 then []
    else if |parts| == 1 then parts[0]
    else parts[0] + [sep] + Join(parts[1..], sep)
  }

  /** No occurrence of `x` is the same as a count of zero. */
  lemma {:induction false} CountZero<T>(s: seq<T>, x: T)
    ensures Count(s, x) == 0 <==> x !in s
  {
    if |s| > 0 {
      CountZero(s[1..], x);
      assert s == [s[0]] + s[1..];
    }
  }

  /** Counting distributes over concatenation. */
  lemma {:induction false} CountConcat<T>(a: seq<T>, b: seq<T>, x: T)
    ensures Count(a + b, x) == Count(a, x) + Count(b, x)
  {
    if |a| > 0 {
      assert (a + b)[0] == a[0];
      assert (a + b)[1..] == a[1..] + b;
      CountConcat(a[1..], b, x);
    } else {
      assert a + b == b;
    }
  }

  /** Without a separator there is one piece: the whole sequence. */
  lemma SplitNoSeparator<T>(s: seq<T>, sep: T)
    requires sep !in s
    ensures Split(s, sep) == [s]
  {
    CountZero(s, sep);
    var parts := Split(s, sep);
    assert |parts| == 1;
    JoinSplit(s, sep);
  }

  /** The first piece ends at the first separator; the rest is the split of what follows it. */
  lemma {:induction false} SplitAtFirst<T>(s: seq<T>, sep: T)
    requires sep in s
    ensures Split(s, sep) == [s[..IndexOf(s, sep)]] + Split(s[IndexOf(s, sep) + 1..], sep)
  {
    if s[0] != sep {
      var t := s[1..];
      var j := IndexOf(t, sep);
      SplitAtFirst(t, sep);
      assert s[..1 + j] == [s[0]] + t[..j];
      assert s[1 + j + 1..] == t[j + 1..];
    }
  }

  /** A sequence with exactly one separator splits into the text before it and the text after it. */
  lemma SplitOnce<T>(s: seq<T>, sep: T)
    requires Count(s, sep) == 1
    ensures sep in s
    ensures Split(s, sep) == [s[..IndexOf(s, sep)], s[IndexOf(s, sep) + 1..]]
  {
    CountZero(s, sep);
    var i := IndexOf(s, sep);
    SplitAtFirst(s, sep);
    var tail := s[i + 1..];
    assert |Split(tail, sep)| == 1;
    CountZero(tail, sep);
    SplitNoSeparator(tail, sep);
  }

  /** Joining the pieces with the separator gives back the original sequence. */
  lemma {:induction false} JoinSplit<T>(s: seq<T>, sep: T)
    ensures Join(Split(s, sep), sep) == s
  {
    if |s| > 0 {
      var rest := Split(s[1..], sep);
      JoinSplit(s[1..], sep);
      if s[0] == sep {
        assert Split(s, sep) == [[]] + rest;
        assert ([[]] + rest)[1..] == rest;
        assert s == [] + [sep] + s[1..];
      } else {
        var parts := Split(s, sep);
        assert parts == [[s[0]] + rest[0]] + rest[1..];
        if |rest| == 1 {
          assert s == [s[0]] + s[1..];
        } else {
          assert parts[1..] == rest[1..];
          assert Join(rest, sep) == rest[0] + [sep] + Join(rest[1..], sep);
          assert s == [s[0]] + s[1..];
        }
      }
    }
  }

  /** Splitting a join of separator-free pieces gives the pieces back. */
  lemma {:induction false} SplitJoin<T>(parts: seq<seq<T>>, sep: T)
    requires |parts| > 0
    requires forall i :: 0 <= i < |parts| ==> sep !in parts[i]
    ensures Split(Join(parts, sep), sep) == parts
  {
    if |parts| == 1 {
      SplitNoSeparator(parts[0], sep);
    } else {
      var s := Join(parts, sep);
      var tail := Join(parts[1..], sep);
      assert s == parts[0] + [sep] + tail;
      SplitJoin(parts[1..], sep);
      assert s[..|parts[0]|] == parts[0];
      assert s[|parts[0]|] == sep;
      var i := IndexOf(s, sep);
      assert i == |parts[0]|;
      SplitAtFirst(s, sep);
      assert s[..i] == parts[0];
      assert s[i + 1..] == tail;
    }
  }

  /**
   Splitting a concatenation: the last piece of `a` and the first piece of `b`
   fuse into one piece.
   */
  lemma {:induction false} SplitConcat<T>(a: seq<T>, b: seq<T>, sep: T)
    ensures Split(a + b, sep) == Fuse(Split(a, sep), Split(b, sep))
  {
    if |a| == 0 {
      assert a + b == b;
      var pb := Split(b, sep);
      assert [] + pb[0] == pb[0];
      assert pb == [pb[0]] + pb[1..];
    } else {
      assert (a + b)[0] == a[0];
      assert (a + b)[1..] == a[1..] + b;
      SplitConcat(a[1..], b, sep);
      FuseCons(a[0], Split(a[1..], sep), Split(b, sep), sep);
    }
  }

  /** Pieces `pa` followed by pieces `pb`, the last of `pa` glued to the first of `pb`. */
  function Fuse<T>(pa: seq<seq<T>>, pb: seq<seq<T>>): seq<seq<T>>
    requires |pa| > 0 && |pb| > 0
  {
    pa[..|pa| - 1] + [pa[|pa| - 1] + pb[0]] + pb[1..]
  }

  /** One step of `SplitConcat`: prepending an element to the left operand. */
  lemma FuseCons<T>(x: T, ra: seq<seq<T>>, pb: seq<seq<T>>, sep: T)
    requires |ra| > 0 && |pb| > 0
    ensures var rab := Fuse(ra, pb);
      && (x == sep ==> [[]] + rab == Fuse([[]] + ra, pb))
      && (x != sep ==> [[x] + rab[0]] + rab[1..] == Fuse([[x] + ra[0]] + ra[1..], pb))
  {
    var n := |ra|;
    var rab := Fuse(ra, pb);
    var fused := [ra[n - 1] + pb[0]] + pb[1..];
    assert rab == ra[..n - 1] + fused;
    if x == sep {
      var pa := [[]] + ra;
      assert pa[..|pa| - 1] == [[]] + ra[..n - 1];
    } else {
      var pa := [[x] + ra[0]] + ra[1..];
      if n == 1 {
        assert rab == fused;
        assert [x] + rab[0] == ([x] + ra[0]) + pb[0];
        assert pa[..|pa| - 1] == [];
      } else {
        assert rab[0] == ra[0];
        assert rab[1..] == ra[1..n - 1] + fused;
        assert pa[..|pa| - 1] == [[x] + ra[0]] + ra[1..n - 1];
      }
    }
  }
}

=== FILE: sweeps.dfy ===
/**
 What the reader publishes, defined without its state machine: the lines
 between consecutive empty lines form one frame each, and only the groups
 closed by an empty line are published; the reader's history is the last
 `SpectrumCount` of those frames.
 */
module Sweeps {
  import opened Wrappers
  import opened Splitting
  import opened History
  import opened Reader

  /** The readings of a group of sample lines, in order. */
  function Samples(group: seq<string>): (f: Frame)
    ensures |f| == |group|
  {
    if |group| == 0 then [] else [Reading(group[0])] + Samples(group[1..])
  }

  /** The readings of each group. */
  function SamplesEach(groups: seq<seq<string>>): (fs: seq<Frame>)
    ensures |fs| == |groups|
  {
    if |groups| == 0 then [] else [Samples(groups[0])] + SamplesEach(groups[1..])
  }

  /**
   The frames a line sequence describes: its groups of lines between empty
   lines, each read line by line. The last group has no closing empty line.
   */
  function Frames(lines: seq<string>): (fs: seq<Frame>)
    ensures |fs| == Count(lines, []) + 1
  {
    SamplesEach(Split(lines, []))
  }

  /** The frames closed by an empty line, oldest first. */
  function Published(lines: seq<string>): seq<Frame>
  {
    var fs := Frames(lines);
    fs[..|fs| - 1]
  }

  /** The samples after the last empty line. */
  function Pending(lines: seq<string>): Frame
  {
    var fs := Frames(lines);
    fs[|fs| - 1]
  }

  /** `fs` with `cur` in front of the samples of its first frame. */
  function Opened(cur: Frame, fs: seq<Frame>): seq<Frame>
    requires |fs| > 0
  {
    [cur + fs[0]] + fs[1..]
  }

  /** The frames of a non-empty line sequence in terms of the frames of its tail. */
  lemma FramesFirst(lines: seq<string>)
    requires |lines| > 0
    ensures lines[0] == [] ==> Frames(lines) == [[]] + Frames(lines[1..])
    ensures lines[0] != [] ==>
      Frames(lines) == Opened([Reading(lines[0])], Frames(lines[1..]))
  {
  }

  /**
   The outcome of running lines describing frames `fs` from `s`: every frame
   but the last is closed and published, the first one continuing the frame
   in progress, and the last one stays in progress.
   */
  function Expected(s: State, fs: seq<Frame>): Result<State, Fault>
    requires |fs| > 0
  {
    var open := Opened(s.current, fs);
    Success(State(Window(s.history + open[..|open| - 1], SpectrumCount), open[|open| - 1]))
  }

  /** An empty line in front: publishing the frame in progress first leads to the same outcome. */
  lemma ExpectedAfterPush(s: State, fs: seq<Frame>)
    requires |s.history| <= SpectrumCount && |fs| > 0
    ensures Expected(State(Push(s.history, s.current), []), fs) == Expected(s, [[]] + fs)
  {
    var h, cur := s.history, s.current;
    var open := Opened(cur, [[]] + fs);
    var closed := fs[..|fs| - 1];
    assert open == [cur] + fs by {
      assert ([[]] + fs)[1..] == fs;
      assert cur + ([[]] + fs)[0] == cur;
    }
    assert Opened([], fs) == fs by {
      assert [] + fs[0] == fs[0];
    }
    assert h + open[..|open| - 1] == h + [cur] + closed by {
      assert open[..|open| - 1] == [cur] + closed;
    }
    PushIsWindow(h, cur);
    WindowOfWindow(h + [cur], closed, SpectrumCount);
  }

  /** A sample line in front: extending the frame in progress first leads to the same outcome. */
  lemma ExpectedAfterSample(s: State, r: int, fs: seq<Frame>)
    requires |fs| > 0
    ensures Expected(State(s.history, s.current + [r]), fs) == Expected(s, Opened([r], fs))
  {
    assert s.current + ([r] + fs[0]) == s.current + [r] + fs[0];
  }

  /**
   From any state within capacity, running well-formed lines publishes the
   closed frames (the first one continuing the frame in progress) into the
   window of the last `SpectrumCount` frames, and leaves the open group in
   progress.
   */
  lemma {:induction false} RunFrames(s: State, lines: seq<string>)
    requires |s.history| <= SpectrumCount
    requires WellFormedLines(lines)
    ensures Run(s, lines) == Expected(s, Frames(lines))
    decreases |lines|
  {
    if |lines| == 0 {
      assert Split(lines, []) == [[]];
      assert Frames(lines) == [[]];
      assert s.current + [] == s.current;
      assert s.history + [] == s.history;
    } else {
      var line, rest := lines[0], lines[1..];
      assert !Malformed(line);
      assert WellFormedLines(rest) by {
        forall i | 0 <= i < |rest| ensures !Malformed(rest[i]) {
          assert rest[i] == lines[i + 1];
        }
      }
      FramesFirst(lines);
      if line == [] {
        StepEmpty(s);
        RunFrames(State(Push(s.history, s.current), []), rest);
        ExpectedAfterPush(s, Frames(rest));
      } else {
        RunFrames(State(s.history, s.current + [Reading(line)]), rest);
        ExpectedAfterSample(s, Reading(line), Frames(rest));
      }
    }
  }

  /**
   From the start state, well-formed lines leave the last `SpectrumCount`
   closed frames in the history and the samples after the last empty line in
   progress.
   */
  lemma RunPublishes(lines: seq<string>)
    requires WellFormedLines(lines)
    ensures Run(Start, lines) == Success(State(Window(Published(lines), SpectrumCount), Pending(lines)))
  {
    RunFrames(Start, lines);
    var fs := Frames(lines);
    assert Opened(Start.current, fs) == fs by {
      assert [] + fs[0] == fs[0];
    }
    assert Start.history + fs[..|fs| - 1] == Published(lines);
  }

  /** The reader stops at the first malformed line, whatever follows it. */
  lemma {:induction false} RunStopsAtFirstMalformed(s: State, lines: seq<string>, k: nat)
    requires k < |lines| && Malformed(lines[k])
    requires forall j :: 0 <= j < k ==> !Malformed(lines[j])
    ensures Run(s, lines) == Failure(UnexpectedOutput(lines[k]))
    decreases k
  {
    var rest := lines[1..];
    if k > 0 {
      RunStopsAtFirstMalformed(Step(s, lines[0]).value, rest, k - 1);
    }
  }

  /** Running a concatenation runs the second part from where the first one ended. */
  lemma {:induction false} RunAppend(s: State, a: seq<string>, b: seq<string>)
    ensures Run(s, a).Failure? ==> Run(s, a + b) == Run(s, a)
    ensures Run(s, a).Success? ==> Run(s, a + b) == Run(Run(s, a).value, b)
    decreases |a|
  {
    if |a| == 0 {
      assert a + b == b;
    } else {
      assert a == [a[0]] + a[1..];
      assert a + b == [a[0]] + (a[1..] + b);
      RunFirst(s, a[0], a[1..]);
      RunFirst(s, a[0], a[1..] + b);
      if Step(s, a[0]).Success? {
        RunAppend(Step(s, a[0]).value, a[1..], b);
      }
    }
  }

  /** Sample lines alone only extend the frame in progress; the history is untouched. */
  lemma {:induction false} SamplesOnlyExtend(s: State, tail: seq<string>)
    requires forall i :: 0 <= i < |tail| ==> IsSampleLine(tail[i]) && |tail[i]| > 0
    ensures Run(s, tail) == Success(State(s.history, s.current + Samples(tail)))
    decreases |tail|
  {
    if |tail| == 0 {
      assert s.current + Samples(tail) == s.current;
    } else {
      var rest, r := tail[1..], [Reading(tail[0])];
      SampleLineExtends(s, tail);
      SamplesOnlyExtend(State(s.history, s.current + r), rest);
      Regroup(s.current, r, Samples(rest));
    }
  }

  /**
   Regrouping three frames. Stated apart from `SamplesOnlyExtend` because,
   next to the facts about `Run` there, the solver does not find this step
   within its budget.
   */
  lemma Regroup(a: Frame, b: Frame, c: Frame)
    ensures (a + b) + c == a + (b + c)
  {
  }

  /**
   Samples after the last empty line are never published: appending sample
   lines leaves the history exactly as it was and only extends the frame in
   progress.
   */
  lemma UnterminatedFrameUnpublished(s: State, lines: seq<string>, tail: seq<string>)
    requires WellFormedLines(lines)
    requires forall i :: 0 <= i < |tail| ==> IsSampleLine(tail[i]) && |tail[i]| > 0
    ensures Run(s, lines).Success?
    ensures Run(s, lines + tail) ==
      Success(State(Run(s, lines).value.history, Run(s, lines).value.current + Samples(tail)))
  {
    RunAppend(s, lines, tail);
    SamplesOnlyExtend(Run(s, lines).value, tail);
  }

  /** Text without a '\n' appended to the input adds no line and changes nothing the reader does. */
  lemma UnterminatedChunkIgnored(input: string, tail: string)
    requires '\n' !in tail
    ensures Lines(input + tail) == Lines(input)
    ensures ReadSpectrum(input + tail) == ReadSpectrum(input)
  {
    SplitConcat(input, tail, '\n');
    SplitNoSeparator(tail, '\n');
  }

  /** Lines each ended by '\n', followed by unterminated text, read back as exactly those lines. */
  lemma LinesOfText(lines: seq<string>, trailing: string)
    requires forall i :: 0 <= i < |lines| ==> '\n' !in lines[i]
    requires '\n' !in trailing
    ensures Lines(Join(lines + [trailing], '\n')) == lines
  {
    var parts := lines + [trailing];
    forall i | 0 <= i < |parts| ensures '\n' !in parts[i] {
      if i < |lines| { assert parts[i] == lines[i]; }
    }
    SplitJoin(parts, '\n');
    assert Split(Join(parts, '\n'), '\n') == parts;
  }

  /**
   The whole reader on its input text: a success carries the last
   `SpectrumCount` frames closed by an empty line; a failure names the first
   malformed line.
   */
  lemma ReadSpectrumOutcome(input: string)
    ensures WellFormedLines(Lines(input)) ==>
      ReadSpectrum(input) == Success(Window(Published(Lines(input)), SpectrumCount))
    ensures !WellFormedLines(Lines(input)) ==>
      exists k :: 0 <= k < |Lines(input)| && Malformed(Lines(input)[k])
        && (forall j :: 0 <= j < k ==> !Malformed(Lines(input)[j]))
        && ReadSpectrum(input) == Failure(UnexpectedOutput(Lines(input)[k]))
  {
    var lines := Lines(input);
    if WellFormedLines(lines) {
      RunPublishes(lines);
    } else {
      var k := FirstMalformed(lines);
      RunStopsAtFirstMalformed(Start, lines, k);
    }
  }

  /** Index of the first malformed line. */
  function FirstMalformed(lines: seq<string>): (k: nat)
    requires !WellFormedLines(lines)
    ensures k < |lines| && Malformed(lines[k])
    ensures forall j :: 0 <= j < k ==> !Malformed(lines[j])
  {
    if Malformed(lines[0]) then 0
    else
      assert !WellFormedLines(lines[1..]) by {
        var i :| 0 <= i < |lines| && Malformed(lines[i]);
        assert lines[1..][i - 1] == lines[i];
      }
      1 + FirstMalformed(lines[1..])
  }
}

=== FILE: wrappers.dfy ===
/** Failure-carrying result types shared by the reader model. */
module Wrappers {

  /** A value that may be absent. */
  datatype Option<+T> = None | Some(value: T)

  /** Either the value an operation computed or the error it stopped with. */
  datatype Result<+R, +E> = Success(value: R) | Failure(error: E)
}
